=== FILE: README.md ===
# M5StickC Plus2 infrared tools: a Dafny model

This project models the logic of the six small classes behind the
M5StickC Plus2 experiments firmware's infrared tools and menus. Every C++
class is a state record, and every operation is a pure function from the
old state to the new state and its reply.

- `ValueEditor`: a bounded numeric setting, clamped to `[min, max]`, moved by
  a step, with every move reporting whether the value changed.
- `ScrollList`: a selection moved up and down with optional wrap-around,
  plus a viewport (`topIndex_`) that is scrolled so the selection stays
  visible.
- `IrRemote`: the same selection logic over a fixed table of named
  (address, command) pairs. Selecting an entry transmits its NEC frame.
- `IrCodeSender`: a position in the 65536-code space (index = address * 256
  + command), stepped forwards and backwards with wrap-around. It sends the
  frame of the current position.
- `IrRepeatSender`: the same code space, plus a time gate. While sending is
  on, it re-transmits the selected frame every `repeatIntervalMs_`
  milliseconds.
- `IrBruteforce`: after `start()`, it sends every one of the 65536 codes once,
  in index order. Ticks are paced by `delayMs_`, and the scan stops for good
  after the last code.

Shared concepts are defined once:

- `Unsigned`: the C++ unsigned arithmetic the classes rely on.
  - `uint32_t` wrap-around subtraction, which drives the time gate.
  - Increments modulo 2^16 and 2^32.
  - A bit-by-bit `|`.
- `Nec`: the 32-bit NEC frame.
  - It holds address, `~address`, command and `~command`, most significant
    byte first.
  - `Nec.Decode` is the frame's partner: what a receiver accepts.
- `CodeSpace`: the split of an index into address and command, and the
  wrap-around step. `Step` is its modular reference definition.

The remote and both senders build their frames through `Nec.Frame`, and the
senders step through `CodeSpace.Next` / `CodeSpace.Prev`. Those two steps,
written with the source's comparisons, and the bruteforce scanner's frame,
evaluated on its 16-bit fields, are proved equal to the shared `Step` and
`Frame`. That each class's C++ frame expression is `Nec.Frame` is a matter
of reading the code, not a proof (see "## Left out").

The millisecond clock (`millis()`) is a parameter of each `Tick`. The
infrared transmitter (`IRsend::sendNEC(code, 32)`) is modelled by returning
the transmissions a call makes, as a sequence of `Nec.Transmission(code,
bits)`. The number of visible list rows is a parameter of the moves. It is
computed separately, by `ScrollList.VisibleRows` and `IrRemote.Rows`, with
C++ truncating integer division.

Integers are mathematical integers, and the C++ integer types are subset
types: `Uint8`, `Uint16`, `Uint32`. Wherever unsigned arithmetic wraps, the
wrap is written out (`% 2^32`, `% 2^16`). For a byte `b`, `~b & 0xFF` is
`255 - b`; `Nec.InvertFlipsBits` proves this from a bit-by-bit complement. Or-ing bytes that are shifted into disjoint positions is written
as adding them with weights 2^24, 2^16, 2^8 and 1.

Two points where the model states more precisely what the code does:

- In `IrRepeatSender`, `next()` and `startSending()` reset `lastSendMs_` to 0
  with the comments "send immediately on next tick" and "fire immediately
  on next tick". The next tick fires exactly when the clock reads at least
  `repeatIntervalMs_`; `IrRepeatSender.StartThenTick` states this.
- `ensureSelectionVisible()` does not put the selection at a fixed row. It
  scrolls as little as possible, and not at all when the selection is
  already visible; `ScrollList.EnsureVisible` states this minimality.

## Model

| member | source | states |
|---|---|---|
| Unsigned.Sub32 | lib/IrRepeatSender/IrRepeatSender.cpp:69 | `now - lastSendMs_` on `uint32_t` is the elapsed time modulo 2^32: adding it back to `last` gives `now`; it is `now - last`, or `now - last + 2^32` when the clock wrapped |
| Unsigned.Inc32 | lib/IrRepeatSender/IrRepeatSender.cpp:73 | `sendCount_++` on `uint32_t` is the successor, and the largest value wraps to 0 |
| Unsigned.Inc16 | lib/IrBruteforce/IrBruteforce.cpp:61-65 | `command_++` / `address_++` on `uint16_t` is the successor below 0xFFFF, and 0xFFFF wraps to 0 |
| Unsigned.ElapsedAcrossWrap | lib/IrBruteforce/IrBruteforce.cpp:49 | the gate measures true elapsed time across a wrap of the millisecond counter, for any elapsed time below 2^32 |
| Unsigned.BitOr | lib/IrBruteforce/IrBruteforce.cpp:109-112 | the or of two `n`-bit values stays within `n` bits |
| Unsigned.BitOrZero | lib/IrBruteforce/IrBruteforce.cpp:109-112 | or-ing with zero leaves a value unchanged |
| Unsigned.Or8Zero | lib/IrBruteforce/IrBruteforce.cpp:110-111 | on bytes, or-ing the inverted address with a zero command high byte leaves the inverted address |
| Unsigned.Due | lib/IrRepeatSender/IrRepeatSender.cpp:69 | definition of the time gate `now - last >= interval` on `uint32_t`; its wrap-around behaviour is stated by `Unsigned.Sub32` and `Unsigned.ElapsedAcrossWrap` |
| Unsigned.Or8 | lib/IrBruteforce/IrBruteforce.cpp:110-111 | definition of `|` on two bytes through `Unsigned.BitOr`; its properties are stated by `Unsigned.Or8Zero` |
| Unsigned.BitNot | lib/IrRemote/IrRemote.cpp:82 | `~x` on the low `n` bits, defined bit by bit, stays within `n` bits |
| Unsigned.BitNotIsComplement | lib/IrRemote/IrRemote.cpp:82 | flipping every one of the low `n` bits of `x` gives `2^n - 1 - x` |
| Nec.Invert | lib/IrRemote/IrRemote.cpp:82 | `~b & 0xFF` is the byte that adds up with `b` to 0xFF; `Nec.InvertFlipsBits` proves it is the bit-by-bit complement |
| Nec.InvertFlipsBits | lib/IrRemote/IrRemote.cpp:82 | `Invert(b)` is `b` with each of its eight bits flipped, as `~b & 0xFF` computes it |
| Nec.Join | lib/IrRemote/IrRemote.cpp:81-84 | definition of the shift-and-or of four bytes; its properties are stated by `Nec.JoinBytes` and `Nec.Reassemble` |
| Nec.Frame | lib/IrRemote/IrRemote.cpp:81-84 | definition of the frame expression shared by the remote and both senders; its properties are stated by `Nec.FrameBytes`, `Nec.Decode`, `Nec.DecodeFrame`, `Nec.FrameInjective` and `Nec.FrameExample` |
| Nec.JoinBytes | lib/IrRemote/IrRemote.cpp:81-84 | shifting four bytes to positions 24, 16, 8, 0 and or-ing them gives a word whose bytes, high to low, are those four |
| Nec.Reassemble | lib/IrRemote/IrRemote.cpp:81-84 | every 32-bit word is the join of its four bytes |
| Nec.FrameBytes | lib/IrRemote/IrRemote.cpp:81-84 | the frame's bytes, high to low, are address, 255 - address, command, 255 - command |
| Nec.Decode | lib/IrRemote/IrRemote.cpp:81-84 | a receiver accepts exactly the words that are frames: a decoded pair re-encodes to the word, and a rejected word is no pair's frame |
| Nec.DecodeFrame | lib/IrRemote/IrRemote.cpp:81-84 | decoding the frame of (address, command) gives back that pair |
| Nec.FrameInjective | lib/IrCodeSender/IrCodeSender.cpp:54-57 | two pairs with the same frame are the same pair |
| Nec.NoFrameWithoutComplements | lib/IrRemote/IrRemote.cpp:81-84 | a word whose second or fourth byte is not the complement of the byte before it is no frame |
| Nec.FrameExample | lib/IrRemote/IrRemote.cpp:81-84 | address 0x12, command 0x34 give the frame 0x12ED34CB |
| CodeSpace.Address | lib/IrCodeSender/IrCodeSender.cpp:69-72 | `codeIndex >> 8` is the address whose block of 256 indices, starting at `address * 256`, holds the index |
| CodeSpace.Command | lib/IrCodeSender/IrCodeSender.cpp:74-77 | `codeIndex & 0xFF` is the offset of the index inside its address's block |
| CodeSpace.Step | lib/IrCodeSender/IrCodeSender.cpp:21-47 | definition of the reference step, one position modulo 65536; `CodeSpace.Next` and `CodeSpace.Prev` are proved equal to it |
| CodeSpace.Encode | lib/IrCodeSender/IrCodeSender.cpp:69-77 | the index `address * 256 + command` splits back into that address (`>> 8`) and command (`& 0xFF`) |
| CodeSpace.EncodeDecode | lib/IrCodeSender/IrCodeSender.cpp:69-77 | `address() * 256 + command() == codeIndex()` for every index, both parts bytes |
| CodeSpace.Next | lib/IrCodeSender/IrCodeSender.cpp:21-33 | `next()` is the modular reference step forwards: 65535 goes to 0, and the index always changes |
| CodeSpace.Prev | lib/IrCodeSender/IrCodeSender.cpp:35-47 | `prev()` is the modular reference step backwards: 0 goes to 65535, and the index always changes |
| CodeSpace.NextPrevInverse | lib/IrCodeSender/IrCodeSender.cpp:21-47 | `next` then `prev`, and `prev` then `next`, restore the index |
| CodeSpace.IndexFrameInjective | lib/IrBruteforce/IrBruteforce.cpp:105-115 | two indices have the same frame exactly when they are equal |
| ValueEditor.Clamp | lib/ValueEditor/ValueEditor.cpp:82-93 | for a non-empty range, the result is in `[min, max]`, equals an in-range input, and is the point of the range nearest the input |
| ValueEditor.SetRange | lib/ValueEditor/ValueEditor.cpp:19-24 | stores the bounds; the value is back inside a non-empty new range, and a value already inside is kept |
| ValueEditor.SetStep | lib/ValueEditor/ValueEditor.cpp:26-29 | changes the step and nothing else |
| ValueEditor.SetValue | lib/ValueEditor/ValueEditor.cpp:36-39 | stores the input when in range, the minimum below it, the maximum above it |
| ValueEditor.MoveTo | lib/ValueEditor/ValueEditor.cpp:46-66 | only the value can change, and the reply is true exactly when it did; a non-empty range is never left, and a target inside the range is reached exactly |
| ValueEditor.Increase | lib/ValueEditor/ValueEditor.cpp:46-55 | reports false exactly when `clamp(value + step) == value`, leaving the editor untouched; for any step and range, a reported change stores `clamp(value + step)`, the nearest point of the range; with a positive step on a valid editor it never lowers the value, reports false exactly at the maximum, and otherwise moves up by the step or to the maximum |
| ValueEditor.Decrease | lib/ValueEditor/ValueEditor.cpp:57-66 | the mirror image of `increase()`: reports false exactly when `clamp(value - step) == value`, a reported change stores `clamp(value - step)` for any step and range, and with a positive step on a valid editor it never raises the value, reports false exactly at the minimum and otherwise moves down by the step or to the minimum |
| ValueEditor.RunKeepsValid | lib/ValueEditor/ValueEditor.cpp:3-66 | from any valid editor (the constructor's included), any sequence of operations with non-empty ranges keeps `min <= value <= max` |
| ValueEditor.DecreaseToMinimum | lib/ValueEditor/ValueEditor.cpp:57-66 | a value `k` steps above the minimum reaches it in exactly `k` decreases, each reporting a change, and one more reports none |
| ValueEditor.IncreaseToMaximum | lib/ValueEditor/ValueEditor.cpp:46-55 | a value `k` steps below the maximum reaches it in exactly `k` increases, each reporting a change, and one more reports none |
| ValueEditor.StepFiveExample | lib/ValueEditor/ValueEditor.cpp:3-66 | with range [0, 100], step 5 and value 50, ten decreases reach 0 and an eleventh reports no change; ten increases reach 100 |
| ScrollList.New | lib/ScrollList/ScrollList.cpp:3-19 | the constructor's state (selection 0, top 0) is valid |
| ScrollList.EnsureVisible | lib/ScrollList/ScrollList.cpp:132-154 | with no rows the top is 0; otherwise the selection is visible from a non-negative top, the top is kept when the selection was visible, and no other visible top is a smaller scroll |
| ScrollList.MoveUp | lib/ScrollList/ScrollList.cpp:79-101 | false and no change on an empty list or at 0 without wrap; to `count - 1` from 0 with wrap; otherwise one up; a successful move scrolls to keep the selection visible and keeps the list valid |
| ScrollList.MoveDown | lib/ScrollList/ScrollList.cpp:103-125 | false and no change on an empty list or at the last entry without wrap; to 0 from the last entry with wrap; otherwise one down; a successful move keeps the selection visible and the list valid |
| ScrollList.SelectedIndex | lib/ScrollList/ScrollList.cpp:127-130 | on a valid non-empty list, the selection is an entry of the list |
| ScrollList.MovesKeepSelection | lib/ScrollList/ScrollList.cpp:79-154 | any sequence of moves keeps `0 <= selected < count` and keeps a visible selection visible |
| ScrollList.MovesFromNew | lib/ScrollList/ScrollList.cpp:3-154 | from the constructor's state, any sequence of moves keeps the selection an entry of the list and on screen |
| ScrollList.TruncDiv | lib/ScrollList/ScrollList.cpp:43 | C++ `int` division rounds towards zero: for a positive divisor, the quotient brackets the dividend from below (non-negative dividend) or from above (negative dividend) |
| ScrollList.VisibleRows | lib/ScrollList/ScrollList.cpp:41-44 | there are rows exactly when the free height holds one line, and the row count is the number of whole lines that fit |
| ScrollList.DefaultLayoutRows | lib/ScrollList/ScrollList.cpp:3-44 | with the constructor's layout, a 135-pixel screen shows six rows |
| IrRemote.New | lib/IrRemote/IrRemote.cpp:3-12 | the constructor's state is valid |
| IrRemote.Rows | lib/IrRemote/IrRemote.cpp:108-111 | with list top 8, padding 4 and line height 20, rows appear exactly on a screen at least 32 pixels tall, and the count is the whole lines that fit |
| IrRemote.MoveUp | lib/IrRemote/IrRemote.cpp:24-46 | fails exactly on an empty table or at the first entry without wrap; otherwise selects the previous entry (the last one when wrapping) and keeps it visible |
| IrRemote.MoveDown | lib/IrRemote/IrRemote.cpp:48-70 | fails exactly on an empty table or at the last entry without wrap; otherwise selects the next entry (the first one when wrapping) and keeps it visible |
| IrRemote.SelectedCommand | lib/IrRemote/IrRemote.cpp:103-106 | the selected entry is an entry of the table |
| IrRemote.SendSelected | lib/IrRemote/IrRemote.cpp:72-96 | nothing is sent for an empty table; otherwise one 32-bit transmission that decodes to the selected entry's address and command |
| IrCodeSender.Next | lib/IrCodeSender/IrCodeSender.cpp:21-33 | always reports true, and the index does change; 65535 goes to 0, any other index goes up by one |
| IrCodeSender.Prev | lib/IrCodeSender/IrCodeSender.cpp:35-47 | always reports true, and the index does change; 0 goes to 65535, any other index goes down by one |
| IrCodeSender.NextPrevRoundTrip | lib/IrCodeSender/IrCodeSender.cpp:21-47 | `next()` undoes `prev()` and vice versa |
| IrCodeSender.Address | lib/IrCodeSender/IrCodeSender.cpp:69-72 | `address()` is the address whose block of 256 indices holds `codeIndex_` |
| IrCodeSender.Command | lib/IrCodeSender/IrCodeSender.cpp:74-77 | `command()` is what is left of `codeIndex_` after taking out `address() * 256` |
| IrCodeSender.AddressCommandSplit | lib/IrCodeSender/IrCodeSender.cpp:69-77 | `address() * 256 + command() == codeIndex()` |
| IrCodeSender.Send | lib/IrCodeSender/IrCodeSender.cpp:49-67 | one 32-bit transmission that decodes to (`address()`, `command()`), equal to the shared frame of the index |
| IrRepeatSender.SetRepeatIntervalMs | lib/IrRepeatSender/IrRepeatSender.cpp:19-22 | changes the interval and nothing else |
| IrRepeatSender.Next | lib/IrRepeatSender/IrRepeatSender.cpp:29-43 | the shared forward step; resets the send count and gate to 0; keeps sending as it was |
| IrRepeatSender.Prev | lib/IrRepeatSender/IrRepeatSender.cpp:45-59 | the shared backward step; resets the send count and gate to 0; keeps sending as it was |
| IrRepeatSender.SendCode | lib/IrRepeatSender/IrRepeatSender.cpp:97-123 | one 32-bit transmission that decodes to (index >> 8, index & 0xFF), equal to the shared frame of the index |
| IrRepeatSender.Tick | lib/IrRepeatSender/IrRepeatSender.cpp:61-76 | a stopped sender does nothing; a sending one transmits exactly when the wrap-around elapsed time reaches the interval, then records `now` and counts the send; otherwise nothing changes |
| IrRepeatSender.StartSending | lib/IrRepeatSender/IrRepeatSender.cpp:78-84 | sending on, count and gate reset, index and interval kept |
| IrRepeatSender.StopSending | lib/IrRepeatSender/IrRepeatSender.cpp:86-90 | only sending is switched off; index and count are kept |
| IrRepeatSender.StartThenTick | lib/IrRepeatSender/IrRepeatSender.cpp:61-84 | after `startSending()` the first tick fires exactly when the clock reads at least the interval |
| IrRepeatSender.TicksRepeatSelected | lib/IrRepeatSender/IrRepeatSender.cpp:61-76 | however the clock advances, ticking only re-sends the selected frame, never moves the index, and counts every transmission modulo 2^32 |
| IrBruteforce.InitialInv | lib/IrBruteforce/IrBruteforce.cpp:5-13 | the constructor's state (first code, nothing sent, not running) satisfies the scan invariant |
| IrBruteforce.SetDelayMs | lib/IrBruteforce/IrBruteforce.cpp:15-18 | changes the delay and nothing else, so the scan invariant is kept |
| IrBruteforce.Start | lib/IrBruteforce/IrBruteforce.cpp:20-29 | first code, nothing sent, gate reset, running, delay kept; the scan invariant holds |
| IrBruteforce.Stop | lib/IrBruteforce/IrBruteforce.cpp:31-34 | only running is cleared; position and count are kept, and so is the invariant |
| IrBruteforce.SendCurrentCode | lib/IrBruteforce/IrBruteforce.cpp:105-115 | a 32-bit transmission; while the command fits in a byte it is the shared frame of (address's low byte, command) |
| IrBruteforce.PositionIsCount | lib/IrBruteforce/IrBruteforce.cpp:54-80 | while running, the position (address, command) is the code whose index is the count, and the frame sent is that code's |
| IrBruteforce.Tick | lib/IrBruteforce/IrBruteforce.cpp:41-83 | stopped: false, nothing sent, nothing changed; delay not elapsed: true, nothing sent, nothing changed; otherwise one transmission of the current code, `now` recorded, the count incremented, and the reply equal to the new running flag |
| IrBruteforce.TickKeepsInv | lib/IrBruteforce/IrBruteforce.cpp:54-80 | on a reachable state a tick keeps `codesSent == address * 256 + command` with `command <= 255` and `address <= 256`; a firing tick counts one code and stops exactly with the 65536th |
| IrBruteforce.TickSendsCount | lib/IrBruteforce/IrBruteforce.cpp:54-61 | on a reachable state a firing tick sends the frame of the code whose index is the count of codes sent before |
| IrBruteforce.FramesDistinct | lib/IrBruteforce/IrBruteforce.cpp:105-115 | the frames of different codes in a scan differ, so no code is sent twice |
| IrBruteforce.RunStopped | lib/IrBruteforce/IrBruteforce.cpp:43-46 | a stopped scanner ignores every tick |
| IrBruteforce.RunCounts | lib/IrBruteforce/IrBruteforce.cpp:41-83 | however the clock advances, a reachable scanner stays reachable and counts every code it sends |
| IrBruteforce.RunEnumerates | lib/IrBruteforce/IrBruteforce.cpp:41-83 | however the clock advances, a reachable scanner sends the codes that follow its count, in order and without gaps |
| IrBruteforce.ScanFromStart | lib/IrBruteforce/IrBruteforce.cpp:20-83 | after `start()`, the codes go out in index order from 0, at most 65536 of them; the scanner stops exactly when all have been sent and then sends nothing more |
| IrBruteforce.PacedTicksAllFire | lib/IrBruteforce/IrBruteforce.cpp:41-83 | ticks spaced at least the delay apart each send one code until the scan is complete |
| IrBruteforce.CompleteScan | lib/IrBruteforce/IrBruteforce.cpp:20-83 | started and then ticked at least 65536 times at the delay's pace, the scanner has sent every code exactly once in index order and has stopped |

## Left out

- Drawing is not modelled, because it has no effect on the state the model tracks. This covers:
  - `draw`, `drawList`, `drawScreen`, `drawStatus`, `drawProgress` and `drawCode`;
  - the "SENT!", "OK" and "Done!" flashes;
  - the progress percentage;
  - `setLayout`, `setColors`, `setLabel` and `setSuffix`.
- `IRsend::begin` and `IRsend::sendNEC` belong to a foreign library. A call to `sendNEC(code, 32)` is modelled as one `Nec.Transmission(code, 32)` in the returned sequence. `begin()` has no modelled effect.
- `millis()` is a parameter (`now`) of each `Tick`.
- The screen height is not modelled. The moves take the number of visible rows as a parameter, and `VisibleRows` / `Rows` compute it from a given height.
- The button gesture classifier and the menu/mode controller are not part of this model: no source for them exists. `src/main.cpp` only prints a greeting.
- Trivial getters are not modelled separately, because each one returns a field of the state record:
  - `value()`, `isSending()`, `isRunning()` and `codeIndex()`;
  - `currentAddress()`, `currentCommand()` and `codesSent()`;
  - `totalCodes()`, which is `CodeSpace.TotalCodes`;
  - `IrRemote::selectedIndex()` (lib/IrRemote/IrRemote.cpp:98-101), which is the list's `selected` field;
  - `IrRepeatSender::address()` and `command()` (lib/IrRepeatSender/IrRepeatSender.cpp:97-106), which are `CodeSpace.Address` and `CodeSpace.Command` of the index, as `IrRepeatSender.SendCode` uses them.
- The frame expression in `IrRemote::sendSelected` (lib/IrRemote/IrRemote.cpp:81-84), `IrCodeSender::send` (lib/IrCodeSender/IrCodeSender.cpp:54-57) and `IrRepeatSender::sendCode` (lib/IrRepeatSender/IrRepeatSender.cpp:117-120) is the same text, and all three are modelled by `Nec.Frame`. Two steps are taken by reading, not proved: that C++ `~b & 0xFF` on a promoted byte is the eight-bit complement `Unsigned.BitNot(b, 8)` (which `Nec.InvertFlipsBits` proves equal to `255 - b`), and that or-ing bytes in disjoint positions is adding them, which `Nec.Join` takes as its definition.
- IrRemote.SelectedCommand: requires a non-empty table. `selectedCommand()` reads `commands_[selectedIndex_]` without checking, so on an empty table the C++ read is undefined. The model leaves that case out rather than invent a result.
- ValueEditor.Increase: does not model C++ signed `int` overflow in `value_ + step_`. The model uses mathematical integers, so a sum beyond `INT_MAX` (undefined behaviour in C++) is not represented.
- ValueEditor.Decrease: does not model C++ signed `int` overflow in `value_ - step_`, for the same reason.
- ValueEditor.RunKeepsValid: assumes every `setRange` gets `min <= max`. The code does not enforce this, and with an empty range `clamp` returns `minValue_` for values below it and `maxValue_` above it, as `ValueEditor.Clamp` models.
- IrRepeatSender.Tick: `codeIndex_` is a `uint32_t` in the source. The model types it as `0 .. 65535`, the only values `next()`, `prev()` and the constructor can produce.
- IrCodeSender.Next: `codeIndex_` is a `uint32_t` in the source (lib/IrCodeSender/IrCodeSender.h:35). As in `IrRepeatSender`, the model types it as `0 .. 65535`, the only values `next()`, `prev()` and the constructor can produce, and the same holds for `IrCodeSender.Prev`, `IrCodeSender.Address`, `IrCodeSender.Command` and `IrCodeSender.Send`.
- IrBruteforce.SendCurrentCode: states the frame only while `command_ <= 0xFF`, which every reachable state satisfies. For a wider command the function still computes the source's expression: the command's high byte is or-ed into the inverted-address byte. No property is stated for that case.
- IrBruteforce.Tick: the frame it sends is tied to the count of codes (`TickSendsCount`, `TickKeepsInv`) only on reachable states. On other states `Tick` just evaluates the source's expression.

=== FILE: codespace.dfy ===
/**
 * The linear code space shared by the single-shot sender, the repeat
 * sender and the bruteforce scanner: index = address * 256 + command,
 * 65536 codes in all, stepped forwards and backwards with wrap-around.
 */
module CodeSpace {
  import Nec

  const TotalCodes: int := 256 * 256

  /** A code index, `0 .. 65535`. */
  type CodeIndex = i: int | 0 <= i < 0x1_0000

  /** `codeIndex >> 8`, the high byte of the index: the block of 256
      indices that holds `i` starts at `address * 256`. */
  function Address(i: CodeIndex): (a: Nec.Byte)
    ensures a * 0x100 <= i < a * 0x100 + 0x100
  {
    Nec.Shr8(i)
  }

  /** `codeIndex & 0xFF`, the low byte of the index: its offset inside the
      address's block. */
  function Command(i: CodeIndex): (c: Nec.Byte)
    ensures Address(i) * 0x100 + c == i
  {
    Nec.Low(i)
  }

  /** The index of an (address, command) pair. */
  function Encode(address: Nec.Byte, command: Nec.Byte): (i: CodeIndex)
    ensures Address(i) == address && Command(i) == command
  {
    Nec.Split(address, command);
    address * 0x100 + command
  }

  /** Splitting an index into address and command loses nothing:
      `address * 256 + command == index`. */
  lemma EncodeDecode(i: CodeIndex)
    ensures Address(i) * 0x100 + Command(i) == i
    ensures Encode(Address(i), Command(i)) == i
  {
  }

  /** The reference step: one position forwards or backwards, modulo the
      size of the code space. */
  function Step(i: CodeIndex, forward: bool): CodeIndex
  {
    if forward then (i + 1) % TotalCodes else (i - 1) % TotalCodes
  }

  /** `next()` as the source writes it: the last index goes to 0, any other
      index to its successor. */
  function Next(i: CodeIndex): (r: CodeIndex)
    ensures r == Step(i, true)
    ensures r != i
    ensures i == TotalCodes - 1 ==> r == 0
  {
    if i >= TotalCodes - 1 then 0 else i + 1
  }

  /** `prev()` as the source writes it: index 0 goes to the last index, any
      other index to its predecessor. */
  function Prev(i: CodeIndex): (r: CodeIndex)
    ensures r == Step(i, false)
    ensures r != i
    ensures i == 0 ==> r == TotalCodes - 1
  {
    if i == 0 then TotalCodes - 1 else i - 1
  }

  /** Stepping forwards and then backwards, or the other way round,
      returns to the starting index. */
  lemma NextPrevInverse(i: CodeIndex)
    ensures Prev(Next(i)) == i
    ensures Next(Prev(i)) == i
  {
  }

  /** The frame transmitted for an index. */
  function IndexFrame(i: CodeIndex): Nec.Word
  {
    Nec.Frame(Address(i), Command(i))
  }

  /** Different indices are transmitted as different frames. */
  lemma IndexFrameInjective(i: CodeIndex, j: CodeIndex)
    ensures IndexFrame(i) == IndexFrame(j) <==> i == j
  {
    if IndexFrame(i) == IndexFrame(j) {
      Nec.FrameInjective(Address(i), Command(i), Address(j), Command(j));
      EncodeDecode(i);
      EncodeDecode(j);
    }
  }
}

=== FILE: ir_bruteforce.dfy ===
/**
 * The bruteforce scanner: after `start()` it walks every (address,
 * command) pair once, command fastest, one transmission per tick that
 * finds the pacing delay elapsed, and stops for good after the last
 * code. The millisecond clock is a parameter of `Tick`; transmissions are
 * returned.
 */
module IrBruteforce {
  import Nec
  import CodeSpace
  import Unsigned

  type Uint16 = Unsigned.Uint16

  datatype Scanner = Scanner(
    delayMs: Unsigned.Uint32,
    lastSendMs: Unsigned.Uint32,
    running: bool,
    address: Uint16,
    command: Uint16,
    codesSent: Unsigned.Uint32)

  /** The default pacing delay in milliseconds. */
  const DefaultDelayMs: Unsigned.Uint32 := 100

  /** The constructor's state: not running, at the first code. */
  const Initial: Scanner := Scanner(DefaultDelayMs, 0, false, 0, 0, 0)

  /** What every reachable state satisfies: the position (address,
      command) is the number of codes sent so far, and a scanner still
      running has codes left to send. */
  predicate Inv(s: Scanner)
  {
    && s.command <= 0xFF
    && s.address <= 0x100
    && s.codesSent == s.address * 256 + s.command
    && (s.address == 0x100 ==> s.command == 0)
    && (s.running ==> s.address <= 0xFF)
  }

  /** The constructor's state satisfies the invariant. */
  lemma InitialInv()
    ensures Inv(Initial) && Initial.codesSent == 0 && !Initial.running
  {
  }

  /** `setDelayMs(ms)` changes the delay and nothing else. */
  function SetDelayMs(s: Scanner, ms: Unsigned.Uint32): (r: Scanner)
    ensures r.delayMs == ms
    ensures r.(delayMs := s.delayMs) == s
    ensures Inv(s) ==> Inv(r)
  {
    s.(delayMs := ms)
  }

  /** `start()`: back to the first code with nothing sent, gate reset,
      running. */
  function Start(s: Scanner): (r: Scanner)
    ensures r.running && r.address == 0 && r.command == 0
    ensures r.codesSent == 0 && r.lastSendMs == 0 && r.delayMs == s.delayMs
    ensures Inv(r)
  {
    s.(address := 0, command := 0, codesSent := 0, lastSendMs := 0, running := true)
  }

  /** `stop()` only clears `running`; position and count are kept. */
  function Stop(s: Scanner): (r: Scanner)
    ensures !r.running
    ensures r.(running := s.running) == s
    ensures Inv(s) ==> Inv(r)
  {
    s.(running := false)
  }

  /** `sendCurrentCode()`: the frame expression evaluated on the 16-bit
      fields. Shifted left by 24 in 32 bits, the address keeps only its low
      byte; `~x & 0xFF` inverts a low byte; and `command_ << 8` places the
      command's high byte over the inverted address, so the second byte is
      an or of the two. While the command fits in a byte that high byte is
      0 and the result is the ordinary frame. */
  function SendCurrentCode(s: Scanner): (t: Nec.Transmission)
    ensures t.bits == Nec.FrameBits
    ensures s.command <= 0xFF ==> t.code == Nec.Frame(s.address % 0x100, s.command)
  {
    var a := Nec.Low(s.address);
    var c := Nec.Low(s.command);
    var second := Unsigned.Or8(Nec.Invert(a), Nec.Shr8(s.command));
    if s.command <= 0xFF then
      assert Nec.Shr8(s.command) == 0 && c == s.command;
      Unsigned.Or8Zero(Nec.Invert(a));
      Nec.Transmission(Nec.Join(a, second, c, Nec.Invert(c)), Nec.FrameBits)
    else
      Nec.Transmission(Nec.Join(a, second, c, Nec.Invert(c)), Nec.FrameBits)
  }

  /** What one call of `tick()` produces. */
  datatype TickResult = TickResult(scanner: Scanner, more: bool, sent: seq<Nec.Transmission>)

  /** The frame a scan sends as its `k`-th code (counting from 0). */
  function CodeFrame(k: CodeSpace.CodeIndex): Nec.Transmission
  {
    Nec.Transmission(CodeSpace.IndexFrame(k), Nec.FrameBits)
  }

  /** While running, the position is the code whose index is the count,
      so the frame sent is the frame of that code. */
  lemma PositionIsCount(s: Scanner)
    ensures Inv(s) && s.running ==>
      && s.codesSent < CodeSpace.TotalCodes
      && CodeSpace.Address(s.codesSent) == s.address
      && CodeSpace.Command(s.codesSent) == s.command
      && SendCurrentCode(s) == CodeFrame(s.codesSent)
  {
    if Inv(s) && s.running {
      Nec.Split(s.address, s.command);
      assert s.address % 0x100 == s.address;
    }
  }

  /** `tick()` at clock reading `now`. A stopped scanner reports false and
      does nothing; a running one whose delay has not elapsed reports true
      and does nothing; otherwise it transmits the code at its position,
      counts it, records `now` and advances, command first with carry into
      the address. The result says whether the scanner is still running. */
  function Tick(s: Scanner, now: Unsigned.Uint32): (r: TickResult)
    ensures r.more == r.scanner.running
    ensures r.scanner.delayMs == s.delayMs
    ensures !s.running ==> r == TickResult(s, false, [])
    ensures s.running && !Unsigned.Due(now, s.lastSendMs, s.delayMs) ==> r == TickResult(s, true, [])
    ensures s.running && Unsigned.Due(now, s.lastSendMs, s.delayMs) ==>
      r.sent == [SendCurrentCode(s)] && r.scanner.lastSendMs == now
      && r.scanner.codesSent == Unsigned.Inc32(s.codesSent)
  {
    if !s.running then TickResult(s, false, [])
    else if Unsigned.Sub32(now, s.lastSendMs) < s.delayMs then TickResult(s, true, [])
    else
      var sent := [SendCurrentCode(s)];
      var fired := s.(codesSent := Unsigned.Inc32(s.codesSent), lastSendMs := now);
      var command := Unsigned.Inc16(s.command);
      if command > 0xFF then
        var address := Unsigned.Inc16(s.address);
        if address > 0xFF then
          TickResult(fired.(command := 0, address := address, running := false), false, sent)
        else
          TickResult(fired.(command := 0, address := address), true, sent)
      else
        TickResult(fired.(command := command), true, sent)
  }

  /** On a reachable state a tick keeps the state reachable; when it fires,
      it counts one code, and the scan ends exactly with the 65536th code. */
  lemma TickKeepsInv(s: Scanner, now: Unsigned.Uint32)
    requires Inv(s)
    ensures Inv(Tick(s, now).scanner)
    ensures s.running && Unsigned.Due(now, s.lastSendMs, s.delayMs) ==>
      var r := Tick(s, now);
      && r.scanner.codesSent == s.codesSent + 1
      && (r.scanner.running <==> s.codesSent + 1 < CodeSpace.TotalCodes)
  {
    if s.running && Unsigned.Due(now, s.lastSendMs, s.delayMs) {
      var r := Tick(s, now);
      if s.command < 0xFF {
        assert r.scanner == s.(codesSent := s.codesSent + 1, lastSendMs := now, command := s.command + 1);
      } else if s.address < 0xFF {
        assert r.scanner == s.(codesSent := s.codesSent + 1, lastSendMs := now, command := 0, address := s.address + 1);
      } else {
        assert r.scanner == s.(codesSent := s.codesSent + 1, lastSendMs := now, command := 0, address := 0x100, running := false);
      }
    }
  }

  /** On a reachable state, the code a firing tick sends is the one whose
      index is the number of codes sent before. */
  lemma TickSendsCount(s: Scanner, now: Unsigned.Uint32)
    requires Inv(s)
    ensures s.running && Unsigned.Due(now, s.lastSendMs, s.delayMs) ==>
      s.codesSent < CodeSpace.TotalCodes && Tick(s, now).sent == [CodeFrame(s.codesSent)]
  {
    PositionIsCount(s);
  }

  /** A sequence of ticks at the clock readings `nows`. */
  function Run(s: Scanner, nows: seq<Unsigned.Uint32>): (r: (Scanner, seq<Nec.Transmission>))
    decreases |nows|
  {
    if nows == [] then (s, [])
    else
      var t := Tick(s, nows[0]);
      var next := Run(t.scanner, nows[1..]);
      (next.0, t.sent + next.1)
  }

  /** The frames of codes `from .. to - 1`, in order. */
  function Frames(from: int, to: int): (fs: seq<Nec.Transmission>)
    requires 0 <= from <= to <= CodeSpace.TotalCodes
    ensures |fs| == to - from
    ensures forall j :: 0 <= j < to - from ==> fs[j] == CodeFrame(from + j)
  {
    seq(to - from, j requires 0 <= j < to - from => CodeFrame(from + j))
  }

  /** A scan sends every code at most once: the frames of distinct codes
      differ. */
  lemma FramesDistinct(from: int, to: int, i: int, j: int)
    requires 0 <= from <= to <= CodeSpace.TotalCodes
    requires 0 <= i < j < to - from
    ensures Frames(from, to)[i] != Frames(from, to)[j]
  {
    CodeSpace.IndexFrameInjective(from + i, from + j);
  }

  /** The scanner is running, or it has finished a complete scan. */
  predicate RunningOrDone(s: Scanner)
  {
    s.running || s.codesSent == CodeSpace.TotalCodes
  }

  /** Sending code `from` and then codes `from + 1 .. to - 1` sends codes
      `from .. to - 1`. */
  lemma PrependFrame(from: int, to: int, rest: seq<Nec.Transmission>)
    requires 0 <= from < to <= CodeSpace.TotalCodes
    requires rest == Frames(from + 1, to)
    ensures [CodeFrame(from)] + rest == Frames(from, to)
  {
    var out := [CodeFrame(from)] + rest;
    forall j | 0 <= j < |out|
      ensures out[j] == CodeFrame(from + j)
    {
      if j > 0 {
        assert out[j] == rest[j - 1];
      }
    }
  }

  /** A stopped scanner ignores every tick. */
  lemma {:induction false} RunStopped(s: Scanner, nows: seq<Unsigned.Uint32>)
    requires !s.running
    ensures Run(s, nows) == (s, [])
    decreases |nows|
  {
    if nows != [] {
      var t := Tick(s, nows[0]);
      assert t == TickResult(s, false, []);
      RunStopped(s, nows[1..]);
      var none: seq<Nec.Transmission> := [];
      assert none + none == none;
      assert Run(s, nows) == (Run(s, nows[1..]).0, none + Run(s, nows[1..]).1);
    }
  }

  /** However the clock advances, a reachable scanner stays reachable and
      counts every code it sends. */
  lemma {:induction false} RunCounts(s: Scanner, nows: seq<Unsigned.Uint32>)
    requires Inv(s)
    ensures Inv(Run(s, nows).0)
    ensures Run(s, nows).0.codesSent == s.codesSent + |Run(s, nows).1|
    ensures RunningOrDone(s) ==> RunningOrDone(Run(s, nows).0)
    decreases |nows|
  {
    if nows != [] {
      var t := Tick(s, nows[0]);
      TickKeepsInv(s, nows[0]);
      RunCounts(t.scanner, nows[1..]);
      var next := Run(t.scanner, nows[1..]);
      assert Run(s, nows) == (next.0, t.sent + next.1);
    }
  }

  /** However the clock advances, a reachable scanner sends the codes that
      follow its count, in order and without gaps. */
  lemma {:induction false} RunEnumerates(s: Scanner, nows: seq<Unsigned.Uint32>)
    requires Inv(s)
    ensures s.codesSent <= Run(s, nows).0.codesSent <= CodeSpace.TotalCodes
    ensures Run(s, nows).1 == Frames(s.codesSent, Run(s, nows).0.codesSent)
    decreases |nows|
  {
    if nows != [] {
      var t := Tick(s, nows[0]);
      TickKeepsInv(s, nows[0]);
      TickSendsCount(s, nows[0]);
      RunEnumerates(t.scanner, nows[1..]);
      var next := Run(t.scanner, nows[1..]);
      assert Run(s, nows) == (next.0, t.sent + next.1);
      TickThenFrames(s, t, next.0.codesSent, next.1);
    }
  }

  /** One tick followed by the frames of the codes after it is the frames
      of the codes from the tick's position on. */
  lemma TickThenFrames(s: Scanner, t: TickResult, to: int, rest: seq<Nec.Transmission>)
    requires Inv(s) && Inv(t.scanner)
    requires (t.sent == [] && t.scanner == s)
      || (s.codesSent < CodeSpace.TotalCodes && t.sent == [CodeFrame(s.codesSent)] && t.scanner.codesSent == s.codesSent + 1)
    requires t.scanner.codesSent <= to <= CodeSpace.TotalCodes
    requires rest == Frames(t.scanner.codesSent, to)
    ensures s.codesSent <= to
    ensures t.sent + rest == Frames(s.codesSent, to)
  {
    if t.sent == [] {
      assert t.sent + rest == rest;
    } else {
      PrependFrame(s.codesSent, to, rest);
    }
  }

  /** From `start()`, whatever the clock does: the codes go out in index
      order starting from 0, at most 65536 of them, and the scanner stops
      exactly when all 65536 have been sent. Once stopped, later ticks send
      nothing. */
  lemma ScanFromStart(s: Scanner, nows: seq<Unsigned.Uint32>, later: seq<Unsigned.Uint32>)
    ensures var (s', out) := Run(Start(s), nows);
      && |out| <= CodeSpace.TotalCodes
      && out == Frames(0, |out|)
      && s'.codesSent == |out|
      && (!s'.running <==> |out| == CodeSpace.TotalCodes)
      && (!s'.running ==> Run(s', later) == (s', []))
  {
    RunCounts(Start(s), nows);
    RunEnumerates(Start(s), nows);
    var (s', out) := Run(Start(s), nows);
    if !s'.running {
      RunStopped(s', later);
    }
  }

  /** Each clock reading is at least the delay after the previous one
      (wrap-around subtraction), starting from `last`. */
  predicate Paced(last: Unsigned.Uint32, nows: seq<Unsigned.Uint32>, delay: Unsigned.Uint32)
    decreases |nows|
  {
    nows == [] || (Unsigned.Due(nows[0], last, delay) && Paced(nows[0], nows[1..], delay))
  }

  /** A running scanner ticked at a pace that honours the delay sends one
      code per tick until the scan is complete. */
  lemma {:induction false} PacedTicksAllFire(s: Scanner, nows: seq<Unsigned.Uint32>)
    requires Inv(s) && s.running
    requires Paced(s.lastSendMs, nows, s.delayMs)
    ensures Run(s, nows).0.codesSent ==
      if s.codesSent + |nows| < CodeSpace.TotalCodes then s.codesSent + |nows| else CodeSpace.TotalCodes
    decreases |nows|
  {
    if nows != [] {
      var t := Tick(s, nows[0]);
      TickKeepsInv(s, nows[0]);
      if t.scanner.running {
        PacedTicksAllFire(t.scanner, nows[1..]);
      } else {
        RunStopped(t.scanner, nows[1..]);
      }
    }
  }

  /** A complete scan: started, then ticked at least 65536 times at a pace
      that honours the delay, the scanner has sent every code exactly once
      in index order and has stopped. */
  lemma CompleteScan(s: Scanner, nows: seq<Unsigned.Uint32>)
    requires |nows| >= CodeSpace.TotalCodes
    requires Paced(0, nows, s.delayMs)
    ensures var (s', out) := Run(Start(s), nows);
      && out == Frames(0, CodeSpace.TotalCodes)
      && !s'.running
      && s'.codesSent == CodeSpace.TotalCodes
  {
    PacedTicksAllFire(Start(s), nows);
    ScanFromStart(s, nows, []);
  }
}

=== FILE: ir_code_sender.dfy ===
/**
 * The single-shot sender: a position in the 65536-code space, stepped
 * forwards and backwards with wrap-around, and a `send()` that transmits
 * the frame of the current position.
 */
module IrCodeSender {
  import Nec
  import CodeSpace

  datatype Sender = Sender(codeIndex: CodeSpace.CodeIndex)

  /** The constructor's state. */
  const Initial: Sender := Sender(0)

  /** `next()`: always reports a change, and the index does change; it
      moves one position forwards modulo 65536. */
  function Next(s: Sender): (r: (Sender, bool))
    ensures r.1 && r.0.codeIndex != s.codeIndex
    ensures r.0.codeIndex == CodeSpace.Step(s.codeIndex, true)
    ensures s.codeIndex == CodeSpace.TotalCodes - 1 ==> r.0.codeIndex == 0
    ensures s.codeIndex < CodeSpace.TotalCodes - 1 ==> r.0.codeIndex == s.codeIndex + 1
  {
    (Sender(CodeSpace.Next(s.codeIndex)), true)
  }

  /** `prev()`: always reports a change, and the index does change; it
      moves one position backwards modulo 65536. */
  function Prev(s: Sender): (r: (Sender, bool))
    ensures r.1 && r.0.codeIndex != s.codeIndex
    ensures r.0.codeIndex == CodeSpace.Step(s.codeIndex, false)
    ensures s.codeIndex == 0 ==> r.0.codeIndex == CodeSpace.TotalCodes - 1
    ensures s.codeIndex > 0 ==> r.0.codeIndex == s.codeIndex - 1
  {
    (Sender(CodeSpace.Prev(s.codeIndex)), true)
  }

  /** `next()` undoes `prev()` and vice versa. */
  lemma NextPrevRoundTrip(s: Sender)
    ensures Prev(Next(s).0).0 == s
    ensures Next(Prev(s).0).0 == s
  {
  }

  /** `address()`, the high byte of the index. */
  function Address(s: Sender): (a: Nec.Byte)
    ensures a * 0x100 <= s.codeIndex < a * 0x100 + 0x100
  {
    CodeSpace.Address(s.codeIndex)
  }

  /** `command()`, the low byte of the index. */
  function Command(s: Sender): (c: Nec.Byte)
    ensures s.codeIndex - Address(s) * 0x100 == c
  {
    CodeSpace.Command(s.codeIndex)
  }

  /** `address() * 256 + command() == codeIndex()`. */
  lemma AddressCommandSplit(s: Sender)
    ensures Address(s) * 0x100 + Command(s) == s.codeIndex
  {
    CodeSpace.EncodeDecode(s.codeIndex);
  }

  /** `send()`: one 32-bit transmission that a receiver decodes as
      (`address()`, `command()`). */
  function Send(s: Sender): (t: Nec.Transmission)
    ensures t.bits == Nec.FrameBits
    ensures Nec.Decode(t.code) == Nec.Some((Address(s), Command(s)))
    ensures t.code == CodeSpace.IndexFrame(s.codeIndex)
  {
    Nec.DecodeFrame(Address(s), Command(s));
    Nec.Transmission(Nec.Frame(Address(s), Command(s)), Nec.FrameBits)
  }
}

=== FILE: ir_remote.dfy ===
/**
 * The fixed-command remote: a scrolled list over a caller-supplied table
 * of named (address, command) pairs; Select transmits the frame of the
 * selected entry.
 */
module IrRemote {
  import Nec
  import ScrollList

  datatype IrCommand = IrCommand(name: string, address: Nec.Byte, command: Nec.Byte)

  datatype Remote = Remote(commands: seq<IrCommand>, list: ScrollList.List)

  /** The layout constants of the remote's list. */
  const ListTop: int := 8
  const LineHeight: int := 20
  const ScrollPadding: int := 4

  /** The constructor's state: first entry selected, scrolled to the top. */
  function New(commands: seq<IrCommand>): (r: Remote)
    ensures Valid(r)
  {
    Remote(commands, ScrollList.New(|commands|))
  }

  /** The list tracks exactly the entries of the table. */
  predicate Valid(r: Remote)
  {
    r.list.count == |r.commands| && ScrollList.Valid(r.list)
  }

  /** `visibleRows()` for the remote's fixed layout; rows appear only on a
      screen at least 32 pixels tall. */
  function Rows(height: int): (rows: int)
    ensures rows > 0 <==> height >= 32
    ensures height >= 12 ==> rows * 20 <= height - 12 < (rows + 1) * 20
  {
    ScrollList.VisibleRows(height, ListTop, ScrollPadding, LineHeight)
  }

  /** `moveUp(wrap)`: fails exactly on an empty table or at the first entry
      without wrap; otherwise selects the previous entry (the last one
      when wrapping from the first) and keeps it on screen. */
  function MoveUp(r: Remote, wrap: bool, rows: int): (res: (Remote, bool))
    ensures res.0.commands == r.commands
    ensures Valid(r) ==> (!res.1 <==> |r.commands| == 0 || (r.list.selected == 0 && !wrap))
    ensures !res.1 ==> res.0 == r
    ensures Valid(r) ==> Valid(res.0)
    ensures Valid(r) && res.1 ==>
      res.0.list.selected == (if r.list.selected == 0 then |r.commands| - 1 else r.list.selected - 1)
    ensures Valid(r) && res.1 && rows > 0 ==>
      ScrollList.Visible(res.0.list.selected, res.0.list.top, rows)
  {
    var (l, moved) := ScrollList.MoveUp(r.list, wrap, rows);
    (r.(list := l), moved)
  }

  /** `moveDown(wrap)`: fails exactly on an empty table or at the last entry
      without wrap; otherwise selects the next entry (the first one when
      wrapping from the last) and keeps it on screen. */
  function MoveDown(r: Remote, wrap: bool, rows: int): (res: (Remote, bool))
    ensures res.0.commands == r.commands
    ensures Valid(r) ==> (!res.1 <==> |r.commands| == 0 || (r.list.selected >= |r.commands| - 1 && !wrap))
    ensures !res.1 ==> res.0 == r
    ensures Valid(r) ==> Valid(res.0)
    ensures Valid(r) && res.1 ==>
      res.0.list.selected == (if r.list.selected == |r.commands| - 1 then 0 else r.list.selected + 1)
    ensures Valid(r) && res.1 && rows > 0 ==>
      ScrollList.Visible(res.0.list.selected, res.0.list.top, rows)
  {
    var (l, moved) := ScrollList.MoveDown(r.list, wrap, rows);
    (r.(list := l), moved)
  }

  /** `selectedCommand()`: the table entry under the selection. The source
      indexes the table unchecked, so it is only defined on a non-empty
      table. */
  function SelectedCommand(r: Remote): (cmd: IrCommand)
    requires Valid(r) && |r.commands| > 0
    ensures cmd in r.commands
  {
    r.commands[r.list.selected]
  }

  /** `sendSelected()`: nothing on an empty table; otherwise one 32-bit
      transmission that a receiver decodes as the selected entry's address
      and command. */
  function SendSelected(r: Remote): (out: seq<Nec.Transmission>)
    requires Valid(r)
    ensures |r.commands| == 0 ==> out == []
    ensures |r.commands| > 0 ==> |out| == 1 && out[0].bits == Nec.FrameBits
    ensures |r.commands| > 0 ==>
      Nec.Decode(out[0].code) == Nec.Some((SelectedCommand(r).address, SelectedCommand(r).command))
  {
    if |r.commands| == 0 then []
    else
      var cmd := SelectedCommand(r);
      Nec.DecodeFrame(cmd.address, cmd.command);
      [Nec.Transmission(Nec.Frame(cmd.address, cmd.command), Nec.FrameBits)]
  }
}

=== FILE: ir_repeat_sender.dfy ===
/**
 * The repeat sender: a position in the code space, navigated with
 * wrap-around, and a time gate that re-transmits the selected frame every
 * `repeatIntervalMs` milliseconds while sending is switched on. The
 * millisecond clock is a parameter of `Tick`; transmissions are returned.
 */
module IrRepeatSender {
  import Nec
  import CodeSpace
  import Unsigned

  datatype Sender = Sender(
    codeIndex: CodeSpace.CodeIndex,
    repeatIntervalMs: Unsigned.Uint32,
    lastSendMs: Unsigned.Uint32,
    sending: bool,
    sendCount: Unsigned.Uint32)

  /** The default re-send interval in milliseconds. */
  const DefaultRepeatIntervalMs: Unsigned.Uint32 := 110

  /** The constructor's state: index 0, not sending, nothing sent. */
  const Initial: Sender := Sender(0, DefaultRepeatIntervalMs, 0, false, 0)

  /** `setRepeatIntervalMs(ms)` changes the interval and nothing else. */
  function SetRepeatIntervalMs(s: Sender, ms: Unsigned.Uint32): (r: Sender)
    ensures r.repeatIntervalMs == ms
    ensures r.(repeatIntervalMs := s.repeatIntervalMs) == s
  {
    s.(repeatIntervalMs := ms)
  }

  /** `next()`: the index moves one position forwards modulo 65536, the
      send count and the gate are reset (so a running sender fires as
      soon as the clock allows), and sending stays as it was. */
  function Next(s: Sender): (r: (Sender, bool))
    ensures r.1 && r.0.codeIndex != s.codeIndex
    ensures r.0.codeIndex == CodeSpace.Step(s.codeIndex, true)
    ensures r.0.sendCount == 0 && r.0.lastSendMs == 0
    ensures r.0.sending == s.sending && r.0.repeatIntervalMs == s.repeatIntervalMs
  {
    (s.(codeIndex := CodeSpace.Next(s.codeIndex), sendCount := 0, lastSendMs := 0), true)
  }

  /** `prev()`: as `next()`, one position backwards. */
  function Prev(s: Sender): (r: (Sender, bool))
    ensures r.1 && r.0.codeIndex != s.codeIndex
    ensures r.0.codeIndex == CodeSpace.Step(s.codeIndex, false)
    ensures r.0.sendCount == 0 && r.0.lastSendMs == 0
    ensures r.0.sending == s.sending && r.0.repeatIntervalMs == s.repeatIntervalMs
  {
    (s.(codeIndex := CodeSpace.Prev(s.codeIndex), sendCount := 0, lastSendMs := 0), true)
  }

  /** `sendCode()`: the 32-bit frame of the selected index, which a
      receiver decodes as (index >> 8, index & 0xFF). */
  function SendCode(s: Sender): (t: Nec.Transmission)
    ensures t.bits == Nec.FrameBits
    ensures Nec.Decode(t.code) ==
      Nec.Some((CodeSpace.Address(s.codeIndex), CodeSpace.Command(s.codeIndex)))
    ensures t.code == CodeSpace.IndexFrame(s.codeIndex)
  {
    var a := CodeSpace.Address(s.codeIndex);
    var c := CodeSpace.Command(s.codeIndex);
    Nec.DecodeFrame(a, c);
    Nec.Transmission(Nec.Frame(a, c), Nec.FrameBits)
  }

  /** `tick()` at clock reading `now`: a stopped sender does nothing; a
      sending one transmits the selected frame exactly when the interval
      has elapsed since the last send (wrap-around subtraction), and then
      records `now` and counts the send. Nothing else changes. */
  function Tick(s: Sender, now: Unsigned.Uint32): (r: (Sender, seq<Nec.Transmission>))
    ensures !s.sending ==> r == (s, [])
    ensures s.sending ==> (|r.1| == 1 <==> Unsigned.Due(now, s.lastSendMs, s.repeatIntervalMs))
    ensures s.sending && !Unsigned.Due(now, s.lastSendMs, s.repeatIntervalMs) ==> r == (s, [])
    ensures |r.1| == 1 ==> r.1[0] == SendCode(s)
    ensures |r.1| == 1 ==> r.0 == s.(lastSendMs := now, sendCount := Unsigned.Inc32(s.sendCount))
    ensures |r.1| <= 1
  {
    if !s.sending then (s, [])
    else if Unsigned.Sub32(now, s.lastSendMs) >= s.repeatIntervalMs then
      (s.(lastSendMs := now, sendCount := Unsigned.Inc32(s.sendCount)), [SendCode(s)])
    else (s, [])
  }

  /** `startSending()`: sending on, count and gate reset, index kept. */
  function StartSending(s: Sender): (r: Sender)
    ensures r.sending && r.sendCount == 0 && r.lastSendMs == 0
    ensures r.codeIndex == s.codeIndex && r.repeatIntervalMs == s.repeatIntervalMs
  {
    s.(sending := true, sendCount := 0, lastSendMs := 0)
  }

  /** `stopSending()` only switches sending off; the index and the count
      stay for display. */
  function StopSending(s: Sender): (r: Sender)
    ensures !r.sending
    ensures r.(sending := s.sending) == s
  {
    s.(sending := false)
  }

  /** After `startSending()` the first tick fires exactly when the clock
      reads at least one interval (the gate was reset to time 0). */
  lemma StartThenTick(s: Sender, now: Unsigned.Uint32)
    ensures |Tick(StartSending(s), now).1| == 1 <==> now >= s.repeatIntervalMs
  {
  }

  /** A sequence of ticks at the clock readings `nows`. */
  function RunTicks(s: Sender, nows: seq<Unsigned.Uint32>): (r: (Sender, seq<Nec.Transmission>))
    decreases |nows|
  {
    if nows == [] then (s, [])
    else
      var (s1, out1) := Tick(s, nows[0]);
      var (sn, rest) := RunTicks(s1, nows[1..]);
      (sn, out1 + rest)
  }

  /** However the clock advances, ticking only ever re-transmits the
      selected frame, never moves the index, and counts every
      transmission (modulo 2^32). */
  lemma {:induction false} TicksRepeatSelected(s: Sender, nows: seq<Unsigned.Uint32>)
    ensures var (s', out) := RunTicks(s, nows);
      && (forall i :: 0 <= i < |out| ==> out[i] == SendCode(s))
      && s'.codeIndex == s.codeIndex
      && s'.sending == s.sending
      && s'.repeatIntervalMs == s.repeatIntervalMs
      && s'.sendCount == (s.sendCount + |out|) % Unsigned.Modulus
    decreases |nows|
  {
    if nows != [] {
      var (s1, out1) := Tick(s, nows[0]);
      TicksRepeatSelected(s1, nows[1..]);
      var (sn, rest) := RunTicks(s1, nows[1..]);
      assert RunTicks(s, nows) == (sn, out1 + rest);
      assert SendCode(s1) == SendCode(s);
      if |out1| == 1 {
        Unsigned.IncThenAdd(s.sendCount, |rest|);
      }
    }
  }
}

=== FILE: nec.dfy ===
/**
 * The 32-bit NEC infrared frame: address, inverted address, command,
 * inverted command, most significant byte first. Every transmitting class
 * of the firmware builds this word with the same expression,
 * `addr << 24 | (~addr & 0xFF) << 16 | cmd << 8 | (~cmd & 0xFF)`, and
 * hands it to the transmitter together with the bit count 32.
 *
 * For a byte `b`, `~b & 0xFF` is `255 - b` (`InvertFlipsBits`), and or-ing bytes shifted into
 * disjoint positions is adding them with weights 2^24, 2^16, 2^8 and 1.
 */
module Nec {
  import Unsigned

  type Byte = Unsigned.Uint8
  type Word = Unsigned.Uint32

  datatype Option<T> = None | Some(value: T)

  /** Number of bits handed to the transmitter with every frame. */
  const FrameBits: nat := 32

  /** One call of the transmitter: the frame and the bit count. */
  datatype Transmission = Transmission(code: Word, bits: nat)

  /** `~b & 0xFF`: the byte that adds up with `b` to 0xFF (that this is
      the byte with every bit flipped is `InvertFlipsBits`). */
  function Invert(b: Byte): (r: Byte)
    ensures r + b == 0xFF
  {
    0xFF - b
  }

  /** `Invert` flips each of the eight bits of a byte. */
  lemma InvertFlipsBits(b: Byte)
    ensures Invert(b) == Unsigned.BitNot(b, 8)
  {
    assert Unsigned.Pow2(8) == 0x100;
    Unsigned.BitNotIsComplement(b, 8);
  }

  /** `w >> 8`, and the lowest byte `w & 0xFF`. */
  function Shr8(w: nat): nat { w / 0x100 }
  function Low(w: nat): Byte { w % 0x100 }

  /** Dividing `q * 256 + r` by 256 gives back `q` and `r`. */
  lemma Split(q: nat, r: Byte)
    ensures Shr8(q * 0x100 + r) == q && Low(q * 0x100 + r) == r
  {
  }

  /** Byte `k` of a word, counting from the most significant (k == 0):
      `(w >> (24 - 8 * k)) & 0xFF`. */
  function ByteAt(w: Word, k: nat): Byte
    requires k < 4
  {
    if k == 3 then Low(w)
    else if k == 2 then Low(Shr8(w))
    else if k == 1 then Low(Shr8(Shr8(w)))
    else Low(Shr8(Shr8(Shr8(w))))
  }

  /** Four bytes, most significant first, as one word:
      `b0 << 24 | b1 << 16 | b2 << 8 | b3`. */
  function Join(b0: Byte, b1: Byte, b2: Byte, b3: Byte): Word
  {
    ((b0 * 0x100 + b1) * 0x100 + b2) * 0x100 + b3
  }

  /** The bytes of a joined word are the bytes it was joined from. */
  lemma JoinBytes(b0: Byte, b1: Byte, b2: Byte, b3: Byte)
    ensures var w := Join(b0, b1, b2, b3);
      ByteAt(w, 0) == b0 && ByteAt(w, 1) == b1 && ByteAt(w, 2) == b2 && ByteAt(w, 3) == b3
  {
    var w2 := b0 * 0x100 + b1;
    var w1 := w2 * 0x100 + b2;
    Split(w1, b3);
    Split(w2, b2);
    Split(b0, b1);
    Split(0, b0);
  }

  /** A word is the join of its four bytes. */
  lemma Reassemble(w: Word)
    ensures Join(ByteAt(w, 0), ByteAt(w, 1), ByteAt(w, 2), ByteAt(w, 3)) == w
  {
    assert Shr8(Shr8(Shr8(w))) < 0x100;
  }

  /** The frame for one (address, command) pair. */
  function Frame(address: Byte, command: Byte): Word
  {
    Join(address, Invert(address), command, Invert(command))
  }

  /** The four bytes of a frame: address, inverted address, command,
      inverted command. */
  lemma FrameBytes(address: Byte, command: Byte)
    ensures var f := Frame(address, command);
      && ByteAt(f, 0) == address && ByteAt(f, 1) == Invert(address)
      && ByteAt(f, 2) == command && ByteAt(f, 3) == Invert(command)
  {
    JoinBytes(address, Invert(address), command, Invert(command));
  }

  /** What a receiver accepts: a word whose second and fourth bytes are the
      complements of the first and third. It yields (address, command). */
  function Decode(f: Word): (r: Option<(Byte, Byte)>)
    ensures r.Some? ==> Frame(r.value.0, r.value.1) == f
    ensures r.None? ==> forall a: Byte, c: Byte :: Frame(a, c) != f
  {
    if ByteAt(f, 1) == Invert(ByteAt(f, 0)) && ByteAt(f, 3) == Invert(ByteAt(f, 2)) then
      Reassemble(f);
      Some((ByteAt(f, 0), ByteAt(f, 2)))
    else
      NoFrameWithoutComplements(f);
      None
  }

  /** A word whose second or fourth byte is not the complement of the byte
      before it is no frame at all. */
  lemma NoFrameWithoutComplements(f: Word)
    requires ByteAt(f, 1) != Invert(ByteAt(f, 0)) || ByteAt(f, 3) != Invert(ByteAt(f, 2))
    ensures forall a: Byte, c: Byte :: Frame(a, c) != f
  {
    forall a: Byte, c: Byte
      ensures Frame(a, c) != f
    {
      FrameBytes(a, c);
    }
  }

  /** Decoding a frame gives back the pair it was built from. */
  lemma DecodeFrame(address: Byte, command: Byte)
    ensures Decode(Frame(address, command)) == Some((address, command))
  {
    FrameBytes(address, command);
  }

  /** Distinct pairs never share a frame. */
  lemma FrameInjective(a: Byte, c: Byte, a': Byte, c': Byte)
    requires Frame(a, c) == Frame(a', c')
    ensures a == a' && c == c'
  {
    DecodeFrame(a, c);
    DecodeFrame(a', c');
  }

  /** The worked example: address 0x12, command 0x34. */
  lemma FrameExample()
    ensures Frame(0x12, 0x34) == 0x12ED_34CB
  {
  }
}

=== FILE: scroll_list.dfy ===
/**
 * Selection in a scrolled list of `count` entries: a selected index moved
 * up and down with optional wrap-around, and the index of the first
 * visible row (`top`), adjusted after every move so that the selection
 * stays on screen. The number of visible rows is supplied by the caller.
 * The menu list and the fixed-command remote share this logic.
 */
module ScrollList {

  datatype List = List(count: nat, selected: int, top: int)

  /** The constructor's state: first entry selected, scrolled to the top. */
  function New(count: nat): (l: List)
    ensures Valid(l)
  {
    List(count, 0, 0)
  }

  /** The selection is an entry of the list (or 0 for an empty list) and
      the viewport does not start above the first entry. */
  predicate Valid(l: List)
  {
    && 0 <= l.selected
    && (l.count > 0 ==> l.selected < l.count)
    && (l.count == 0 ==> l.selected == 0)
    && l.top >= 0
  }

  /** Row `selected` is among the `rows` rows shown from `top`. */
  predicate Visible(selected: int, top: int, rows: int)
  {
    top <= selected < top + rows
  }

  /** How far the viewport moves from `top` to `t`. */
  function Shift(t: int, top: int): nat
  {
    if t < top then top - t else t - top
  }

  /** `ensureSelectionVisible()`: with no visible rows the viewport goes to
      0; otherwise it makes the smallest scroll that brings the selection
      into view, and does not move at all when the selection is already
      visible. */
  function EnsureVisible(selected: int, top: int, rows: int): (t: int)
    ensures rows <= 0 ==> t == 0
    ensures rows > 0 && top >= 0 && selected >= 0 ==> t >= 0 && Visible(selected, t, rows)
    ensures rows > 0 && top >= 0 && Visible(selected, top, rows) ==> t == top
    ensures rows > 0 && top >= 0 && selected >= 0 ==>
      forall u :: Visible(selected, u, rows) ==> Shift(t, top) <= Shift(u, top)
  {
    if rows <= 0 then 0
    else
      var t := if selected < top then selected
               else if selected >= top + rows then selected - rows + 1
               else top;
      if t < 0 then 0 else t
  }

  /** `moveUp(wrap)`. */
  function MoveUp(l: List, wrap: bool, rows: int): (r: (List, bool))
    ensures r.0.count == l.count
    ensures l.count == 0 ==> r == (l, false)
    ensures l.count > 0 && l.selected == 0 && !wrap ==> r == (l, false)
    ensures l.count > 0 && l.selected == 0 && wrap ==> r.1 && r.0.selected == l.count - 1
    ensures l.count > 0 && l.selected != 0 ==> r.1 && r.0.selected == l.selected - 1
    ensures r.1 ==> r.0.top == EnsureVisible(r.0.selected, l.top, rows)
    ensures Valid(l) ==> Valid(r.0)
    ensures Valid(l) && r.1 && rows > 0 ==> Visible(r.0.selected, r.0.top, rows)
  {
    if l.count == 0 then (l, false)
    else if l.selected == 0 && !wrap then (l, false)
    else
      var s := if l.selected == 0 then l.count - 1 else l.selected - 1;
      (l.(selected := s, top := EnsureVisible(s, l.top, rows)), true)
  }

  /** `moveDown(wrap)`. */
  function MoveDown(l: List, wrap: bool, rows: int): (r: (List, bool))
    ensures r.0.count == l.count
    ensures l.count == 0 ==> r == (l, false)
    ensures l.count > 0 && l.selected >= l.count - 1 && !wrap ==> r == (l, false)
    ensures l.count > 0 && l.selected >= l.count - 1 && wrap ==> r.1 && r.0.selected == 0
    ensures l.count > 0 && l.selected < l.count - 1 ==> r.1 && r.0.selected == l.selected + 1
    ensures r.1 ==> r.0.top == EnsureVisible(r.0.selected, l.top, rows)
    ensures Valid(l) ==> Valid(r.0)
    ensures Valid(l) && r.1 && rows > 0 ==> Visible(r.0.selected, r.0.top, rows)
  {
    if l.count == 0 then (l, false)
    else if l.selected >= l.count - 1 && !wrap then (l, false)
    else
      var s := if l.selected >= l.count - 1 then 0 else l.selected + 1;
      (l.(selected := s, top := EnsureVisible(s, l.top, rows)), true)
  }

  /** `selectedIndex()`: on a valid non-empty list, an entry of the list. */
  function SelectedIndex(l: List): (i: int)
    ensures Valid(l) && l.count > 0 ==> 0 <= i < l.count
  {
    l.selected
  }

  /** One button press on the list. */
  datatype Move = Up(wrapUp: bool) | Down(wrapDown: bool)

  function ApplyMove(l: List, m: Move, rows: int): List
  {
    match m
    case Up(w) => MoveUp(l, w, rows).0
    case Down(w) => MoveDown(l, w, rows).0
  }

  function RunMoves(l: List, moves: seq<Move>, rows: int): List
    decreases |moves|
  {
    if moves == [] then l else RunMoves(ApplyMove(l, moves[0], rows), moves[1..], rows)
  }

  /** From the constructor's state, any sequence of moves keeps the
      selection an entry of the list and, when rows are visible at all,
      keeps the selection on screen. */
  lemma {:induction false} MovesKeepSelection(l: List, moves: seq<Move>, rows: int)
    requires Valid(l)
    requires rows > 0 ==> Visible(l.selected, l.top, rows)
    ensures RunMoves(l, moves, rows).count == l.count
    ensures Valid(RunMoves(l, moves, rows))
    ensures l.count > 0 ==> 0 <= RunMoves(l, moves, rows).selected < l.count
    ensures rows > 0 ==> Visible(RunMoves(l, moves, rows).selected, RunMoves(l, moves, rows).top, rows)
    decreases |moves|
  {
    if moves != [] {
      MovesKeepSelection(ApplyMove(l, moves[0], rows), moves[1..], rows);
    }
  }

  /** The constructor's state satisfies the premises of
      `MovesKeepSelection` whenever at least one row is visible. */
  lemma MovesFromNew(count: nat, moves: seq<Move>, rows: int)
    requires rows > 0
    ensures var l := RunMoves(New(count), moves, rows);
      && (count > 0 ==> 0 <= l.selected < count)
      && Visible(l.selected, l.top, rows)
  {
    MovesKeepSelection(New(count), moves, rows);
  }

  /** `int` division as C++ performs it: the quotient is truncated
      towards zero (Dafny's own `/` rounds towards negative infinity for
      a negative dividend). */
  function TruncDiv(a: int, b: int): (q: int)
    requires b != 0
    ensures b > 0 && a >= 0 ==> q * b <= a < (q + 1) * b
    ensures b > 0 && a < 0 ==> (q - 1) * b < a <= q * b
  {
    if b > 0 then
      (if a >= 0 then a / b else -((-a) / b))
    else
      (if a >= 0 then -(a / (-b)) else (-a) / (-b))
  }

  /** `visibleRows()`: the rows of height `lineHeight` that fit between
      `listTop` and `scrollPadding` pixels above the bottom of a screen
      `height` pixels tall. */
  function VisibleRows(height: int, listTop: int, scrollPadding: int, lineHeight: int): (rows: int)
    requires lineHeight != 0
    ensures lineHeight > 0 ==> (rows > 0 <==> height - listTop - scrollPadding >= lineHeight)
    ensures lineHeight > 0 && height - listTop - scrollPadding >= 0 ==>
      rows * lineHeight <= height - listTop - scrollPadding < (rows + 1) * lineHeight
  {
    TruncDiv(height - listTop - scrollPadding, lineHeight)
  }

  /** With the default layout (list top 8, padding 4, line height 20) a
      screen 135 pixels tall shows six rows. */
  lemma DefaultLayoutRows()
    ensures VisibleRows(135, 8, 4, 20) == 6
  {
  }
}

=== FILE: unsigned.dfy ===
/**
 * C++ unsigned arithmetic as the firmware performs it on `uint8_t`,
 * `uint16_t` and `uint32_t` values: millisecond timestamps, counters and
 * the 32-bit infrared frame. Dafny integers are unbounded, so the
 * wrap-around of unsigned arithmetic is written out as a remainder, and
 * the one bitwise operator whose operands can overlap, `|`, is defined
 * bit by bit.
 */
module Unsigned {

  const Modulus: int := 0x1_0000_0000

  /** The values of a C++ `uint8_t`. */
  type Uint8 = x: int | 0 <= x < 0x100

  /** The values of a C++ `uint16_t`. */
  type Uint16 = x: int | 0 <= x < 0x1_0000

  /** The values of a C++ `uint32_t`. */
  type Uint32 = x: int | 0 <= x < 0x1_0000_0000

  /** `a - b` on two `uint32_t` operands. The result is the unique value in
      [0, 2^32) that, added to `b`, gives `a` modulo 2^32. */
  function Sub32(a: Uint32, b: Uint32): (r: Uint32)
    ensures (b + r) % Modulus == a
    ensures a >= b ==> r == a - b
    ensures a < b ==> r == a - b + Modulus
  {
    (a - b) % Modulus
  }

  /** `x++` on a `uint32_t`: the successor, except that the largest value
      wraps to 0. */
  function Inc32(a: Uint32): (r: Uint32)
    ensures a < Modulus - 1 ==> r == a + 1
    ensures a == Modulus - 1 ==> r == 0
  {
    (a + 1) % Modulus
  }

  /** Counting on from a wrapped successor is counting on from the
      original value, modulo 2^32. */
  lemma IncThenAdd(a: Uint32, k: nat)
    ensures (Inc32(a) + k) % Modulus == (a + 1 + k) % Modulus
  {
    if a == Modulus - 1 {
      assert a + 1 + k == Modulus + k;
    }
  }

  /** `x++` on a `uint16_t`. */
  function Inc16(x: Uint16): (r: Uint16)
    ensures x < 0xFFFF ==> r == x + 1
    ensures x == 0xFFFF ==> r == 0
  {
    (x + 1) % 0x1_0000
  }

  /** The time gate shared by the repeat sender and the bruteforce scanner:
      at least `interval` milliseconds have passed since `last`, measured
      with wrap-around subtraction. */
  predicate Due(now: Uint32, last: Uint32, interval: Uint32)
  {
    Sub32(now, last) >= interval
  }

  /** The gate measures true elapsed time even when the millisecond counter
      wraps between `last` and `now`, as long as less than 2^32 ms passed. */
  lemma ElapsedAcrossWrap(last: Uint32, elapsed: Uint32)
    ensures Sub32((last + elapsed) % Modulus, last) == elapsed
  {
  }

  function Pow2(n: nat): (p: nat)
    ensures p >= 1
  {
    if n == 0 then 1 else 2 * Pow2(n - 1)
  }

  /** `~x` on the low `n` bits, lowest bit first: the low bit of the
      result is set when the low bit of `x` is clear, and the higher bits
      are the same operation on `x / 2`. */
  function BitNot(x: nat, n: nat): (r: nat)
    requires x < Pow2(n)
    ensures r < Pow2(n)
    decreases n
  {
    if n == 0 then 0 else (1 - x % 2) + 2 * BitNot(x / 2, n - 1)
  }

  /** Flipping every one of the low `n` bits is subtracting from
      `2^n - 1`. */
  lemma {:induction false} BitNotIsComplement(x: nat, n: nat)
    requires x < Pow2(n)
    ensures BitNot(x, n) == Pow2(n) - 1 - x
    decreases n
  {
    if n > 0 {
      BitNotIsComplement(x / 2, n - 1);
    }
  }

  /** `x | y` on the low `n` bits, lowest bit first: the low bit of the
      result is set when the low bit of `x` or of `y` is, and the higher
      bits are the same operation on `x / 2` and `y / 2`. */
  function BitOr(x: nat, y: nat, n: nat): (r: nat)
    requires x < Pow2(n) && y < Pow2(n)
    ensures r < Pow2(n)
    decreases n
  {
    if n == 0 then 0
    else (if x % 2 == 1 || y % 2 == 1 then 1 else 0) + 2 * BitOr(x / 2, y / 2, n - 1)
  }

  /** Or-ing with zero changes nothing. */
  lemma {:induction false} BitOrZero(x: nat, n: nat)
    requires x < Pow2(n)
    ensures BitOr(x, 0, n) == x
    decreases n
  {
    if n > 0 {
      BitOrZero(x / 2, n - 1);
    }
  }

  /** `x | y` on two bytes. */
  function Or8(x: Uint8, y: Uint8): Uint8
  {
    assert Pow2(8) == 0x100;
    BitOr(x, y, 8)
  }

  /** Or-ing a byte with zero changes nothing. */
  lemma Or8Zero(x: Uint8)
    ensures Or8(x, 0) == x
  {
    assert Pow2(8) == 0x100;
    BitOrZero(x, 8);
  }
}

=== FILE: value_editor.dfy ===
/**
 * The bounded numeric setting: a value kept inside [minValue, maxValue],
 * moved up and down by a fixed step, each move reporting whether the
 * value actually changed. Values are mathematical integers (see README
 * for the C++ `int` overflow this leaves out).
 */
module ValueEditor {

  datatype Editor = Editor(minValue: int, maxValue: int, step: int, value: int)

  /** The state the constructor sets up: range [0, 100], step 1, value 0. */
  const Initial: Editor := Editor(0, 100, 1, 0)

  /** The invariant the editor is meant to keep. */
  predicate Valid(e: Editor)
  {
    e.minValue <= e.value <= e.maxValue
  }

  /** Distance between two integers. */
  function Dist(a: int, b: int): nat
  {
    if a < b then b - a else a - b
  }

  /** `clamp(v)`: for a non-empty range, the point of [minValue, maxValue]
      nearest to `v`; `v` itself when it is already inside. */
  function Clamp(e: Editor, v: int): (r: int)
    ensures e.minValue <= e.maxValue ==> e.minValue <= r <= e.maxValue
    ensures e.minValue <= v <= e.maxValue ==> r == v
    ensures e.minValue <= e.maxValue ==>
      forall x :: e.minValue <= x <= e.maxValue ==> Dist(r, v) <= Dist(x, v)
  {
    if v < e.minValue then e.minValue
    else if v > e.maxValue then e.maxValue
    else v
  }

  /** `setRange(lo, hi)` stores the new bounds and re-clamps the current
      value into them. */
  function SetRange(e: Editor, lo: int, hi: int): (r: Editor)
    ensures r.minValue == lo && r.maxValue == hi && r.step == e.step
    ensures lo <= hi ==> Valid(r)
    ensures lo <= e.value <= hi ==> r.value == e.value
  {
    var ranged := e.(minValue := lo, maxValue := hi);
    ranged.(value := Clamp(ranged, e.value))
  }

  /** `setStep(s)` replaces the step and nothing else. */
  function SetStep(e: Editor, s: int): (r: Editor)
    ensures r.step == s
    ensures r.minValue == e.minValue && r.maxValue == e.maxValue && r.value == e.value
  {
    e.(step := s)
  }

  /** `setValue(v)` stores `v` clamped into the range. */
  function SetValue(e: Editor, v: int): (r: Editor)
    ensures r.minValue == e.minValue && r.maxValue == e.maxValue && r.step == e.step
    ensures e.minValue <= e.maxValue ==> Valid(r)
    ensures e.minValue <= v <= e.maxValue ==> r.value == v
    ensures v < e.minValue ==> r.value == e.minValue
    ensures e.minValue <= e.maxValue < v ==> r.value == e.maxValue
  {
    e.(value := Clamp(e, v))
  }

  /** Shared body of `increase()` and `decrease()`: move to the clamped
      target and report whether the value changed. Only the value can
      change, the flag is true exactly when it did, a non-empty range is
      never left, and a target inside the range is reached. */
  function MoveTo(e: Editor, target: int): (r: (Editor, bool))
    ensures r.1 <==> r.0.value != e.value
    ensures r.0.(value := e.value) == e
    ensures e.minValue <= e.maxValue ==> Valid(r.0)
    ensures e.minValue <= target <= e.maxValue ==> r.0.value == target
  {
    var next := Clamp(e, target);
    if next == e.value then (e, false) else (e.(value := next), true)
  }

  /** `increase()`: stores `clamp(value + step)` and reports whether that
      changed the value. With a positive step on a valid editor it never
      lowers the value, and it reports no change exactly when the value is
      at the maximum. */
  function Increase(e: Editor): (r: (Editor, bool))
    ensures r.1 <==> Clamp(e, e.value + e.step) != e.value
    ensures !r.1 ==> r.0 == e
    ensures r.1 ==> r.0.value == Clamp(e, e.value + e.step)
    ensures r.0.minValue == e.minValue && r.0.maxValue == e.maxValue && r.0.step == e.step
    ensures Valid(e) && e.step > 0 ==> e.value <= r.0.value && (!r.1 <==> e.value == e.maxValue)
    ensures Valid(e) && e.step > 0 && r.1 ==>
      r.0.value == (if e.value + e.step <= e.maxValue then e.value + e.step else e.maxValue)
  {
    MoveTo(e, e.value + e.step)
  }

  /** `decrease()`: the mirror image of `increase()`, bounded below by the
      minimum. */
  function Decrease(e: Editor): (r: (Editor, bool))
    ensures r.1 <==> Clamp(e, e.value - e.step) != e.value
    ensures !r.1 ==> r.0 == e
    ensures r.1 ==> r.0.value == Clamp(e, e.value - e.step)
    ensures r.0.minValue == e.minValue && r.0.maxValue == e.maxValue && r.0.step == e.step
    ensures Valid(e) && e.step > 0 ==> r.0.value <= e.value && (!r.1 <==> e.value == e.minValue)
    ensures Valid(e) && e.step > 0 && r.1 ==>
      r.0.value == (if e.value - e.step >= e.minValue then e.value - e.step else e.minValue)
  {
    MoveTo(e, e.value - e.step)
  }

  /** The operations a caller can apply to an editor. */
  datatype Op = SetRangeOp(lo: int, hi: int) | SetStepOp(s: int) | SetValueOp(v: int)
              | IncreaseOp | DecreaseOp

  function Apply(e: Editor, op: Op): Editor
  {
    match op
    case SetRangeOp(lo, hi) => SetRange(e, lo, hi)
    case SetStepOp(s) => SetStep(e, s)
    case SetValueOp(v) => SetValue(e, v)
    case IncreaseOp => Increase(e).0
    case DecreaseOp => Decrease(e).0
  }

  function Run(e: Editor, ops: seq<Op>): Editor
    decreases |ops|
  {
    if ops == [] then e else Run(Apply(e, ops[0]), ops[1..])
  }

  /** Ranges handed to `setRange` are non-empty. */
  predicate WellFormed(op: Op)
  {
    op.SetRangeOp? ==> op.lo <= op.hi
  }

  /** Starting from any valid editor (the constructor's state included),
      every sequence of operations with non-empty ranges keeps
      `minValue <= value <= maxValue`. */
  lemma {:induction false} RunKeepsValid(e: Editor, ops: seq<Op>)
    requires Valid(e)
    requires forall i :: 0 <= i < |ops| ==> WellFormed(ops[i])
    ensures Valid(Run(e, ops))
    decreases |ops|
  {
    if ops != [] {
      var e' := Apply(e, ops[0]);
      assert WellFormed(ops[0]);
      assert Valid(e');
      assert forall i :: 0 <= i < |ops[1..]| ==> WellFormed(ops[1..][i]) by {
        forall i | 0 <= i < |ops[1..]| ensures WellFormed(ops[1..][i]) {
          assert ops[1..][i] == ops[i + 1];
        }
      }
      RunKeepsValid(e', ops[1..]);
    }
  }

  /** Press `decrease()` (or `increase()` when `up`) `n` times; the final
      editor and the value each press returned. */
  function Presses(e: Editor, up: bool, n: nat): (r: (Editor, seq<bool>))
    ensures |r.1| == n
    decreases n
  {
    if n == 0 then (e, [])
    else
      var (e1, changed) := if up then Increase(e) else Decrease(e);
      var (en, rest) := Presses(e1, up, n - 1);
      (en, [changed] + rest)
  }

  function AllTrue(n: nat): (s: seq<bool>)
    ensures |s| == n && forall i :: 0 <= i < n ==> s[i]
  {
    seq(n, _ => true)
  }

  /** `k` steps of size `s` are `k - 1` steps and one more. */
  lemma PeelStep(k: nat, s: int)
    requires k > 0
    ensures k * s == (k - 1) * s + s
  {
  }

  /** A value `k` steps above the minimum reaches it in exactly `k`
      decreases, each reporting a change; one more reports none. */
  lemma {:induction false} DecreaseToMinimum(e: Editor, k: nat)
    requires Valid(e) && e.step > 0
    requires e.value == e.minValue + k * e.step
    ensures Presses(e, false, k) == (e.(value := e.minValue), AllTrue(k))
    ensures Decrease(Presses(e, false, k).0) == (e.(value := e.minValue), false)
    decreases k
  {
    if k > 0 {
      PeelStep(k, e.step);
      var e1 := e.(value := e.value - e.step);
      assert Decrease(e) == (e1, true);
      DecreaseToMinimum(e1, k - 1);
      assert Presses(e, false, k) == (Presses(e1, false, k - 1).0, [true] + Presses(e1, false, k - 1).1);
      assert [true] + AllTrue(k - 1) == AllTrue(k);
    }
  }

  /** A value `k` steps below the maximum reaches it in exactly `k`
      increases, each reporting a change; one more reports none. */
  lemma {:induction false} IncreaseToMaximum(e: Editor, k: nat)
    requires Valid(e) && e.step > 0
    requires e.value == e.maxValue - k * e.step
    ensures Presses(e, true, k) == (e.(value := e.maxValue), AllTrue(k))
    ensures Increase(Presses(e, true, k).0) == (e.(value := e.maxValue), false)
    decreases k
  {
    if k > 0 {
      PeelStep(k, e.step);
      var e1 := e.(value := e.value + e.step);
      assert Increase(e) == (e1, true);
      IncreaseToMaximum(e1, k - 1);
      assert Presses(e, true, k) == (Presses(e1, true, k - 1).0, [true] + Presses(e1, true, k - 1).1);
      assert [true] + AllTrue(k - 1) == AllTrue(k);
    }
  }

  /** The worked example: range [0, 100], step 5, value 50. Ten decreases
      reach 0 and the eleventh reports no change; symmetrically ten
      increases reach 100. */
  lemma StepFiveExample()
    ensures var e := Run(Initial, [SetStepOp(5), SetValueOp(50)]);
      && Presses(e, false, 10) == (e.(value := 0), AllTrue(10))
      && Decrease(e.(value := 0)) == (e.(value := 0), false)
      && Presses(e, true, 10) == (e.(value := 100), AllTrue(10))
      && Increase(e.(value := 100)) == (e.(value := 100), false)
  {
    var e := Run(Initial, [SetStepOp(5), SetValueOp(50)]);
    assert e == Editor(0, 100, 5, 50);
    DecreaseToMinimum(e, 10);
    IncreaseToMaximum(e, 10);
  }
}
